=== FILE: README.md ===
# A verified model of the go-nostr relay client core

This project models `relay.go`, the client side of one connection to a Nostr relay, in Dafny.

**Dispatcher.** It reads frames from the websocket and applies the drop rules and length guards. It then routes each frame by its command tag (NIP-01 and NIP-42):
- NOTICE and AUTH go to the broadcast streams.
- EVENT passes the delivery gate (registered, filter matches, not stopped, trusted or correctly signed) and is then delivered to the subscription's stream.
- EOSE fires the subscription's end-of-stored-events signal, at most once.
- OK runs the confirmation callback registered under the event id.

**Publish and Auth.** These calls register an OK callback and write their frame. They then wait for an answer or a deadline, and remove the callback on every way out. Only Publish also stops when the connection is lost; Auth waits on its own context alone.

**Subscriptions.** The global subscription counter, `Subscribe` and the one-shot `QuerySync` collection loop.

## How it is organised

- `wire.dfy`, modules `Wrappers` and `Wire`:
  - An inbound `Frame` holds its message type, its raw bytes and what the JSON decoder made of it. That is no array when decoding fails, otherwise a sequence of `Element`s.
  - Each element is recorded as its decoding into a string, a boolean and an event. A Go target that does not fit keeps its zero value, as `json.Unmarshal` leaves it when its error is ignored.
  - `Parse` applies the drop rules and the routing. Its contract states the drop rules as one disjunction, `Dropped`.
- `dispatcher.dfy`, module `Dispatcher`: the relay state the dispatcher touches, as a value. It has one function per route (`Deliver`, `EndOfStoredEvents`, `Acknowledge`), `Apply` and `Step` for one read, and `Steps` for the loop over a finite prefix of reads. `DeliverAsWritten` keeps the crash the EVENT route has for a subscription without filters (see Findings); the rest of the model uses `Deliver`, which ignores the event.
  - `Valid` is the once-only property of EOSE: a subscription has sent its signal once if its once-flag is set, never otherwise.
  - `Grows` says what the dispatcher may do to a subscription: identity, filters and stop flag stay, and the output only grows.
- `confirmation.dfy`, module `Confirmation`: the `Status` newtype and its `String`, and the Publish and Auth calls as machines over a `Signal` sequence.
  - The signals are the write outcome, runs of the OK callback, values from the echo subscription, the end of the call's context, and the loss of the connection.
  - Racing writers (the echo path against the callback) are different orderings of the sequence, and the last write wins.
  - A sequence that ends before the call returns stands for the deadline.
  - A signal the call cannot observe in its current phase is passed over.
- `subscriptions.dfy`, module `Subscriptions`: the counters successive subscriptions receive, and the collection a one-shot query performs (`Collected` as the specification, `Collect` as the loop).
- `nostr.dfy`, module `Nostr`: the `Relay` class, whose fields the methods update in place. `HandleRead` is proved equal to `Dispatcher.Step`, and `Listen` to `Steps`. `Publish` and `Auth` are proved equal to `Confirmation.Run` and shown to leave the callback registry as it was minus the event id. `QuerySync` is proved equal to `Collected`.
  - The relay invariant `Keyed` (every registered subscription sits under the id of its own counter, which was already handed out) holds from construction on. `Fire`, `Subscribe` and `QuerySync` state that they keep it. The other methods do not restate it: `Unsub`, `HandleRead`, `Listen`, `Publish` and `Auth` keep the table's keys and every entry's counter, and `Connect` does not touch the table.

Filter matching (`Filters.Match`) and signature checking (`Event.CheckSignature`) are defined outside `relay.go`. They enter the model as the function-valued fields of `Checks`.

### Behaviour of relay.go worth knowing

- The read loop (lines 122-240) has no exit: every failure `continue`s, so the `cancel()` at line 242 is never reached. The field comment at line 50 says `ConnectionContext` "will be canceled when the connection closes", but only an empty URL in `Connect` ends it. `Listen` therefore never stops on its own.
- `Auth` (lines 368-371) waits only on its own context, so `ConnectionLost` leaves an Auth call waiting (`ConnectionLossOutcome`).
- A failed Publish write returns whatever status the shared cell holds. An OK that arrived before the write returned may already have set it. The model keeps that race. Auth has the same race, although the comment at line 357 says its status "will be "failed"" there.
- The OK callback cancels the call's context (lines 279 and 350), so an OK ends a waiting Publish or Auth at once with the status it wrote. An OK that comes before the write returns ends the call as soon as the write succeeds.
- The code's name for the succeeded status is `"success"` (line 34).
- After a successful AUTH write the code sets the status to sent under the lock (lines 361-363). This overwrites an OK callback that ran before the write returned. `AuthEarlyAckOverwritten` shows a call that got an accepting OK and still reports sent.

## Model

| member | source | states |
|---|---|---|
| Wire.Parse | relay.go:131-239 | A frame is dropped exactly when it is not a text message, is empty, does not start with `[`, does not decode as an array, has fewer than 2 elements, or is an EVENT or OK with fewer than 3. Otherwise the command carries the first element as its tag, NOTICE and AUTH carry the second element's text, EVENT carries the second element as subscription id and the third as event, EOSE the second as subscription id, and OK the second as event id, the third as accepted flag and the fourth as message (empty when there are only three). An unknown tag is kept as ignored |
| Dispatcher.DeliverAsWritten | relay.go:173-207 | The EVENT route as written crashes exactly when the subscription is registered, has no filters and the event does not match, because the log line at line 184 reads the first filter. Otherwise it does what `Deliver` does |
| Dispatcher.EmptyFiltersCrash | relay.go:182-184 | A subscription with no filters and an event it does not match: the route as written crashes, `Deliver` leaves the relay unchanged |
| Dispatcher.Deliver | relay.go:166-207 | An EVENT is appended to exactly the named subscription's output, and only when it is registered, the filter matches, it is not stopped, and the relay is trusted or the signature is valid. Every other subscription, the registry and the streams are unchanged |
| Dispatcher.EndOfStoredEvents | relay.go:209-219 | EOSE for a registered id sets its once-flag and sends the signal only if the flag was not yet set. An unknown id and every other subscription are untouched |
| Dispatcher.Acknowledge | relay.go:220-238 | OK appends one invocation of exactly the callback registered under the event id, with the accepted flag and message, and nothing when no callback is registered. The registry and the subscriptions are unchanged |
| Dispatcher.Apply | relay.go:153-239 | One routed command. NOTICE and AUTH append to their streams. Per subscription, events grow by the event exactly when the delivery gate holds, and the once-flag is set exactly by an EOSE for it. The table's keys and the registry never change, and the once-only EOSE invariant is preserved |
| Dispatcher.Step | relay.go:122-240 | A read failure goes to the errors stream. A dropped frame leaves the state unchanged. No read adds or removes a subscription or a callback, a stopped subscription receives nothing, outputs only grow, and the EOSE invariant is preserved |
| Dispatcher.Steps | relay.go:121-243 | Over any sequence of reads: same subscription ids and callbacks, stopped subscriptions receive nothing, each subscription only grows, and EOSE is signalled at most once per subscription |
| Dispatcher.RepeatedEose | relay.go:213-218 | Two EOSE frames for the same unsignalled subscription send its signal exactly once |
| Confirmation.Status.String | relay.go:27-38 | 0 maps to "sent", -1 to "failed", 1 to "success", and every other value to "unknown", each in both directions |
| Confirmation.Start | relay.go:251 | Publish starts as sent (Auth as failed, line 322), before the write, with no error |
| Confirmation.OnAck | relay.go:270-280 | The OK callback sets succeeded when accepted. Otherwise it sets failed with the error "msg: " followed by the relay's message. Either way it cancels the call's context |
| Confirmation.PublishStep | relay.go:264-316 | A returned call never changes, and a call is never left waiting on a cancelled context. A successful write moves the call to waiting with its status and error kept, and returns it at once if an OK already cancelled it. An echo of another event changes nothing. A Publish returns only on a write failure (status kept, the write error returned), on a successful write after a cancelling OK, on an OK while waiting (the callback's status), on the echo stream closing (as last written), on reading back its own event (succeeded), or on its context or the connection ending while waiting (as last written) |
| Confirmation.AuthStep | relay.go:335-371 | Auth returns only on a write failure (status kept, the write error returned), on a successful write after an OK already cancelled it (status sent), on an OK while waiting (the callback's status), or on its own context ending after the write (status as last written). Echoes and connection loss do not affect it |
| Confirmation.Run | relay.go:290-316 | Over any sequence of signals, a returned call stays returned with its outcome fixed, a cancelled call stays cancelled and never keeps waiting, the status stays one of the three known values, and a Publish reporting failed always carries an error |
| Confirmation.RunAppend | relay.go:290-316 | Feeding two stretches of signals one after the other gives the same state as feeding them together |
| Confirmation.PublishWriteFailure | relay.go:284-287 | A Publish whose write fails first returns sent with the write error, whatever follows |
| Confirmation.AuthWriteFailure | relay.go:355-359 | An Auth whose write fails first returns failed with the write error |
| Confirmation.PublishWrittenKeepsStatus | relay.go:284-290 | After any prefix that leaves a Publish writing, a successful write keeps its status and error, and the call waits unless an OK already cancelled it |
| Confirmation.NoReplyIsSent | relay.go:284-311 | A Publish written with no answer before its deadline returns sent with no error |
| Confirmation.ForeignEchoIgnored | relay.go:292-304 | A waiting Publish that reads back an event with another id keeps waiting, its state unchanged |
| Confirmation.AuthWrittenIsSent | relay.go:360-368 | After a successful AUTH write the status is sent. The call then waits, or returns at once if an OK already cancelled it |
| Confirmation.AckDecides | relay.go:270-280 | While a Publish or Auth has not returned, an OK makes its status succeeded (accepted) or failed with "msg: " plus the message (rejected), and its cancellation returns the call exactly when it was waiting |
| Confirmation.AckBeforeWriteReturns | relay.go:264-290 | An OK that arrives before the write returns ends the call as soon as the write succeeds: a Publish with the callback's status, an Auth with sent |
| Confirmation.DeadlineKeepsOutcome | relay.go:305-311 | A deadline or cancellation while waiting returns the status and error exactly as last written |
| Confirmation.ConnectionLossOutcome | relay.go:312-314 | Losing the connection returns a waiting Publish with its status as last written and leaves a waiting Auth unchanged |
| Confirmation.EchoSucceeds | relay.go:292-304 | A waiting Publish that reads back an event with its own id returns succeeded |
| Confirmation.RejectionEndsPublish | relay.go:276-279 | A rejecting OK while the Publish waits returns it failed with "msg: blocked" at once, and a later echo is not read |
| Confirmation.AuthRejected | relay.go:341-351 | An AUTH rejected with "restricted" returns failed with the error "msg: restricted" without waiting for the deadline |
| Confirmation.AuthEarlyAckOverwritten | relay.go:360-363 | An accepting OK that arrives before the AUTH write returns is overwritten, and its cancellation ends the wait at once: the call reports sent |
| Subscriptions.Issued | relay.go:417-419 | Successive subscriptions starting from counter c receive exactly c, c+1, c+2, … |
| Subscriptions.IssuedIncreasing | relay.go:417-419 | Those counters are strictly increasing, so pairwise distinct, and none is below the start |
| Subscriptions.SubscriptionId | relay.go:428 | The id a subscription is registered under, rendered from the counter stored at line 428. The rendering belongs to subscription.go and is assumed to be decimal: never empty, ending in the counter's last digit |
| Subscriptions.SubscriptionIdInjective | relay.go:417-432 | Distinct counters give distinct ids |
| Subscriptions.Collected | relay.go:400-414 | A query returns exactly the delivered events, in arrival order, up to the first arrival that is a closed stream, the end of stored events or the deadline |
| Subscriptions.CollectedExtends | relay.go:400-414 | Later arrivals only extend the collected events, and change nothing once the query has stopped |
| Subscriptions.Collect | relay.go:400-414 | The collection loop returns exactly `Collected` of its arrivals |
| Nostr.SubscriptionCounter.constructor | relay.go:25 | The process-wide counter starts at 0 |
| Nostr.Relay.constructor | relay.go:40-57 | A new relay has no subscriptions, no callbacks, empty streams, is untrusted and unconnected |
| Nostr.Relay.Connect | relay.go:76-102 | An empty URL returns the error "invalid relay URL ''" without dialing and ends the connection-scoped context. Any other URL connects with fresh streams and no error. The table and registry are untouched |
| Nostr.Relay.HandleRead | relay.go:122-239 | One loop iteration updates the relay exactly as `Dispatcher.Step` says and keeps the EOSE invariant |
| Nostr.Relay.Listen | relay.go:121-243 | The loop over a sequence of reads updates the relay exactly as `Dispatcher.Steps` says |
| Nostr.Relay.Publish | relay.go:250-317 | Needs a connected relay, since the write at line 285 goes through the transport Connect attaches. Returns the status and error of `Run` for Publish. The registry afterwards is the old one without the event id, on every return path. Nothing else changes |
| Nostr.Relay.Auth | relay.go:321-372 | Needs a connected relay, since the write at line 356 goes through the transport Connect attaches. Returns the status and error of `Run` for Auth. The registry afterwards is the old one without the event id, on every return path. Nothing else changes |
| Nostr.Relay.PrepareSubscription | relay.go:417-432 | Returns an unregistered, unstopped subscription holding the counter's current value, and advances the counter by exactly 1 |
| Nostr.Relay.PrepareSubscriptions | relay.go:417-419 | Preparing n subscriptions one after the other gives them exactly the counters `Issued` lists, in order, and advances the counter by n |
| Nostr.Relay.Fire | relay.go:384 | Registers a subscription whose counter was already handed out under the id rendered from that counter, and keeps the EOSE invariant and `Keyed` |
| Nostr.Relay.Unsub | relay.go:391 | Sets the stop flag of the named subscription and changes nothing else |
| Nostr.Relay.Subscribe | relay.go:377-387 | Needs a connected relay. Prepares a subscription with the given filters and registers it under an id that no registered subscription holds, so no live entry is replaced. Everything else is unchanged |
| Nostr.Relay.QuerySync | relay.go:389-415 | Subscribes for one filter, returns `Collected` of the arrivals, and advances the counter by one. The table afterwards is the old one plus exactly the new, stopped subscription under a fresh id. Everything else is unchanged |

## Left out

- The websocket transport (`recws.RecConn`, `Dial`, `ReadMessage`, `WriteMessage`, `WriteJSON`, keepalive and reconnect settings) is foreign I/O. A read is a `Read` value and a write is a `WriteOutcome` signal. The frames Publish and Auth write, and the REQ and CLOSE frames, are not built.
- The pong reply to a ping (lines 131-134) is transport I/O. The model only drops the ping frame.
- The 29-second heartbeat goroutine (lines 105-118) is a timer plus a write.
- Delivery to the notices, challenges and errors channels happens in one goroutine per message. The model appends in arrival order, which Go does not guarantee between goroutines.
- A send on a subscription's unbuffered `Events` channel blocks the dispatcher until the subscriber reads. Channels are modelled as sequences, so this blocking is not captured.
- Real concurrency is modelled as sequential state plus explicit signals: `sync.Mutex`, the concurrent maps, `sync.Once` (a boolean flag), and context deadlines and cancellation. The default deadlines (7 s for Connect, 3 s for Publish and Auth, 7 s for QuerySync) are not modelled, because time is not. A deadline is a `ContextDone` signal or the end of the signal sequence.
- JSON decoding is the decoder's result carried inside each frame.
- `Event.CheckSignature` and `Filters.Match` are defined outside `relay.go`. They are parameters.
- `NormalizeURL`, `RequestHeader` and `log.Printf` are not modelled.
- `RelayConnect` (lines 62-66) only normalises the URL and calls `Connect`.
- `Relay.String` (lines 68-70) returns the URL.
- `Close` (lines 434-436) closes the transport and nothing else.
- subscription.go is not part of this model. Because of that:
  - `Fire` and `Unsub` keep only their effect on the subscription table and the stop flag.
  - The rendering of a counter as an id string belongs to subscription.go. The model renders it in decimal (`SubscriptionId`) and relies only on that rendering being injective.
  - Removing a finished subscription from the table, closing its `Events` channel and cancelling its context are left out.
- Nostr.Relay.Publish: the echo subscription that Publish opens through `Subscribe` (line 289) is not created. That leaves out its counter increment, REQ frame, table entry and cancellation. What it delivers appears only as `Echo` signals.
- The Publish and Auth calls receive their OK-callback runs as `Ack` signals. They are not linked to the dispatcher's `invocations` log, which records the same runs from the dispatcher's side.
- Nostr.Relay.PrepareSubscription: the counter is an unbounded natural number. Go's `int` would wrap after the largest `int` of the platform. The package-level counter is read and incremented at lines 418-419 without a lock or an atomic, while Publish (its echo subscription, line 289), Subscribe and QuerySync run on their callers' goroutines. Two concurrent calls can take the same counter, and the second `Fire` then replaces the first's table entry. Distinct counters and fresh ids hold only for calls one after the other, which is what the model describes.
- Nostr.Relay.Listen: the read loop runs forever. The model runs it over any finite prefix of reads.
- Nostr.Relay.QuerySync: the arrivals are an input. They are not linked to what the dispatcher delivers to the query's subscription, whose `events` stay empty in the table.
- Confirmation.PublishStep: once the OK callback has cancelled a Publish, Go's `select` may still pick an echo that is ready at the same moment. The model always takes the cancellation, so a rejection followed at once by the echo returns failed, never succeeded.

## Findings

| source | as written | input that shows it | evidently intended | confidence | as-written member | corrected member |
|---|---|---|---|---|---|---|
| relay.go:182-185 | When an EVENT does not match its subscription's filters, the log call reads `subscription.Filters[0]` | `Subscribe` with no filters, then an EVENT for that subscription: `Filters.Match` of no filters fails and indexing the empty list panics in the dispatcher goroutine | the comment at line 182: ignore an event that does not match | not executed | Dispatcher.DeliverAsWritten, Dispatcher.EmptyFiltersCrash | Dispatcher.Deliver |

=== FILE: confirmation.dfy ===
/**
 * The publish (NIP-01 "EVENT") and authenticate (NIP-42 "AUTH") confirmation
 * machines.
 *
 * Each call is driven by the sequence of things it observes, in the order it
 * observes them: the outcome of its own write, runs of its OK callback (which
 * the dispatcher may start at any time while the callback is registered, even
 * before the write returns), values read from the echo subscription, the end of
 * its own context and the loss of the connection. Two writers racing for the
 * status are two orderings of that sequence, and the later one wins. A sequence
 * that ends without the call returning stands for the deadline: the call then
 * reports what it holds. A signal the call cannot observe in its current phase
 * is passed over.
 */
module Confirmation {
  import opened Wrappers
  import opened Wire

  /** The tri-state outcome of a publish or authenticate call; any other value is not a status the relay produces. */
  newtype Status = int {
    /** The name of a status, as shown to users. */
    function String(): (r: string)
      ensures r == "sent" <==> this == Sent
      ensures r == "failed" <==> this == Failed
      ensures r == "success" <==> this == Succeeded
      ensures r == "unknown" <==> !Known(this)
    {
      if this == Sent then "sent"
      else if this == Failed then "failed"
      else if this == Succeeded then "success"
      else "unknown"
    }
  }

  const Sent: Status := 0
  const Failed: Status := -1
  const Succeeded: Status := 1

  predicate Known(s: Status) {
    s == Sent || s == Failed || s == Succeeded
  }

  /** One thing a publish or authenticate call observes. */
  datatype Signal =
    | WriteOutcome(failure: Option<string>)  // its own write returned, with the write error if any
    | Ack(accepted: bool, message: string)   // its OK callback ran
    | Echo(received: Option<Event>)          // a value from the echo subscription; None when that stream closed
    | ContextDone                            // its deadline passed or it was cancelled
    | ConnectionLost                         // the relay's connection-scoped context ended

  /** Writing: the frame is being written. Waiting: written, awaiting an answer. Returned: the call has returned. */
  datatype Phase = Writing | Waiting | Returned

  /**
   * The shared status cell of one call, the error beside it, where the call is,
   * and whether the OK callback has cancelled the call's context.
   */
  datatype Machine = Machine(phase: Phase, status: Status, err: Option<string>, cancelled: bool)

  datatype Flow = PublishFlow | AuthFlow

  /** Publish starts as sent, authenticate as failed. */
  function Start(flow: Flow): (m: Machine)
    ensures m.phase == Writing && m.err == None && !m.cancelled
    ensures m.status == (if flow == PublishFlow then Sent else Failed)
  {
    match flow
    case PublishFlow => Machine(Writing, Sent, None, false)
    case AuthFlow => Machine(Writing, Failed, None, false)
  }

  /**
   * The OK callback both calls register: accepted means succeeded, otherwise
   * failed with the relay's message; either way it cancels the call's context.
   */
  function OnAck(m: Machine, accepted: bool, message: string): (m': Machine)
    ensures m'.phase == m.phase && m'.cancelled
    ensures m'.status == (if accepted then Succeeded else Failed)
    ensures m'.err == (if accepted then m.err else Some("msg: " + message))
  {
    if accepted then m.(status := Succeeded, cancelled := true)
    else m.(status := Failed, err := Some("msg: " + message), cancelled := true)
  }

  /** A cancelled context is already done, so a call that waits on it returns at once. */
  function Settle(m: Machine): Machine {
    if m.phase == Waiting && m.cancelled then m.(phase := Returned) else m
  }

  /** The call is not left waiting on a context that is already cancelled. */
  predicate Settled(m: Machine) {
    !(m.phase == Waiting && m.cancelled)
  }

  /** One observation of a publish call for the event with id `eventId`. */
  function PublishStep(eventId: string, m: Machine, s: Signal): (m': Machine)
    ensures m.phase == Returned ==> m' == m
    ensures Settled(m) ==> Settled(m')
    ensures m.phase != Returned && m'.phase == Returned ==>
      match s
      case Ack(accepted, message) => m.phase == Waiting && m' == OnAck(m, accepted, message).(phase := Returned)
      case WriteOutcome(failure) =>
        && m.phase == Writing
        && m' == (if failure.Some? then m.(phase := Returned, err := failure) else m.(phase := Returned))
        && (failure.None? ==> m.cancelled)
      case Echo(received) =>
        && m.phase == Waiting
        && ((received.None? && m' == m.(phase := Returned)) ||
            (received.Some? && received.value.id == eventId && m' == m.(phase := Returned, status := Succeeded)))
      case _ => m.phase == Waiting && m' == m.(phase := Returned)
    ensures s.Echo? && s.received.Some? && s.received.value.id != eventId ==> m' == m
    ensures s.WriteOutcome? && s.failure.None? && m.phase == Writing ==> m' == Settle(m.(phase := Waiting))
  {
    if m.phase == Returned then m
    else
      match s
      case Ack(accepted, message) => Settle(OnAck(m, accepted, message))
      case WriteOutcome(failure) =>
        if m.phase != Writing then m
        else if failure.Some? then m.(phase := Returned, err := failure)
        else Settle(m.(phase := Waiting))
      case Echo(received) =>
        if m.phase != Waiting then m
        else if received.None? then m.(phase := Returned)
        else if received.value.id == eventId then m.(phase := Returned, status := Succeeded)
        else m
      case ContextDone => if m.phase == Waiting then m.(phase := Returned) else m
      case ConnectionLost => if m.phase == Waiting then m.(phase := Returned) else m
  }

  /**
   * One observation of an authenticate call. A successful write sets the status
   * to sent whatever the callback wrote before; the call waits only on its own
   * context, so neither an echo nor the loss of the connection ends it.
   */
  function AuthStep(m: Machine, s: Signal): (m': Machine)
    ensures m.phase == Returned ==> m' == m
    ensures Settled(m) ==> Settled(m')
    ensures m.phase != Returned && m'.phase == Returned ==>
      || (s.Ack? && m.phase == Waiting && m' == OnAck(m, s.accepted, s.message).(phase := Returned))
      || (s.WriteOutcome? && m.phase == Writing && s.failure.Some? && m' == m.(phase := Returned, err := s.failure))
      || (s.WriteOutcome? && m.phase == Writing && s.failure.None? && m.cancelled &&
          m' == m.(phase := Returned, status := Sent))
      || (s.ContextDone? && m.phase == Waiting && m' == m.(phase := Returned))
    ensures s.Echo? || s.ConnectionLost? ==> m' == m
  {
    if m.phase == Returned then m
    else
      match s
      case Ack(accepted, message) => Settle(OnAck(m, accepted, message))
      case WriteOutcome(failure) =>
        if m.phase != Writing then m
        else if failure.Some? then m.(phase := Returned, err := failure)
        else Settle(m.(phase := Waiting, status := Sent))
      case Echo(_) => m
      case ContextDone => if m.phase == Waiting then m.(phase := Returned) else m
      case ConnectionLost => m
  }

  function Step(flow: Flow, eventId: string, m: Machine, s: Signal): Machine {
    match flow
    case PublishFlow => PublishStep(eventId, m, s)
    case AuthFlow => AuthStep(m, s)
  }

  /** A call driven by a sequence of observations. */
  function Run(flow: Flow, eventId: string, m: Machine, signals: seq<Signal>): (m': Machine)
    decreases |signals|
    ensures m.phase == Returned ==> m' == m
    ensures Known(m.status) ==> Known(m'.status)
    ensures m.phase == Waiting ==> m'.phase != Writing
    ensures Settled(m) ==> Settled(m')
    ensures m.cancelled ==> m'.cancelled
    ensures flow == PublishFlow && (m.status == Failed ==> m.err.Some?) ==> (m'.status == Failed ==> m'.err.Some?)
  {
    if signals == [] then m
    else Run(flow, eventId, Step(flow, eventId, m, signals[0]), signals[1..])
  }

  /** Running two stretches of observations one after the other is running them together. */
  lemma {:induction false} RunAppend(flow: Flow, eventId: string, m: Machine, a: seq<Signal>, b: seq<Signal>)
    ensures Run(flow, eventId, m, a + b) == Run(flow, eventId, Run(flow, eventId, m, a), b)
    decreases |a|
  {
    if a == [] {
      assert a + b == b;
    } else {
      assert (a + b)[0] == a[0];
      assert (a + b)[1..] == a[1..] + b;
      RunAppend(flow, eventId, Step(flow, eventId, m, a[0]), a[1..], b);
    }
  }

  /** A publish whose write fails returns sent with the write error, when no OK came before the write returned. */
  lemma PublishWriteFailure(eventId: string, failure: string, rest: seq<Signal>)
    ensures Run(PublishFlow, eventId, Start(PublishFlow), [WriteOutcome(Some(failure))] + rest) ==
            Machine(Returned, Sent, Some(failure), false)
  {
  }

  /** An authenticate whose write fails returns failed with the write error, when no OK came before the write returned. */
  lemma AuthWriteFailure(eventId: string, failure: string, rest: seq<Signal>)
    ensures Run(AuthFlow, eventId, Start(AuthFlow), [WriteOutcome(Some(failure))] + rest) ==
            Machine(Returned, Failed, Some(failure), false)
  {
  }

  /**
   * Once the EVENT frame is written, a publish keeps the status and error it
   * holds, and waits unless an OK already cancelled it.
   */
  lemma {:induction false} PublishWrittenKeepsStatus(eventId: string, before: seq<Signal>)
    requires Run(PublishFlow, eventId, Start(PublishFlow), before).phase == Writing
    ensures var m0 := Run(PublishFlow, eventId, Start(PublishFlow), before);
      var m := Run(PublishFlow, eventId, Start(PublishFlow), before + [WriteOutcome(None)]);
      && m.status == m0.status && m.err == m0.err
      && m.phase == (if m0.cancelled then Returned else Waiting)
  {
    RunAppend(PublishFlow, eventId, Start(PublishFlow), before, [WriteOutcome(None)]);
  }

  /** A publish written with no answer before its deadline returns sent, without an error. */
  lemma NoReplyIsSent(eventId: string)
    ensures Run(PublishFlow, eventId, Start(PublishFlow), [WriteOutcome(None), ContextDone]) ==
            Machine(Returned, Sent, None, false)
  {
    PublishWrittenKeepsStatus(eventId, []);
    DeadlineKeepsOutcome(PublishFlow, eventId, [WriteOutcome(None)]);
    assert [WriteOutcome(None)] + [ContextDone] == [WriteOutcome(None), ContextDone];
  }

  /** A waiting publish that reads back another event keeps waiting, with its state unchanged. */
  lemma {:induction false} ForeignEchoIgnored(eventId: string, before: seq<Signal>, echoed: Event)
    requires Run(PublishFlow, eventId, Start(PublishFlow), before).phase == Waiting
    requires echoed.id != eventId
    ensures Run(PublishFlow, eventId, Start(PublishFlow), before + [Echo(Some(echoed))]) ==
            Run(PublishFlow, eventId, Start(PublishFlow), before)
  {
    RunAppend(PublishFlow, eventId, Start(PublishFlow), before, [Echo(Some(echoed))]);
  }

  /** Once the AUTH frame is written, the status is sent, and the call waits unless an OK already cancelled it. */
  lemma {:induction false} AuthWrittenIsSent(eventId: string, before: seq<Signal>)
    requires Run(AuthFlow, eventId, Start(AuthFlow), before).phase == Writing
    ensures var m := Run(AuthFlow, eventId, Start(AuthFlow), before + [WriteOutcome(None)]);
      && m.status == Sent
      && m.phase == (if Run(AuthFlow, eventId, Start(AuthFlow), before).cancelled then Returned else Waiting)
  {
    RunAppend(AuthFlow, eventId, Start(AuthFlow), before, [WriteOutcome(None)]);
  }

  /**
   * The last OK callback decides the status: accepted gives succeeded, rejected
   * gives failed with an error carrying the relay's message. Its cancellation
   * returns a waiting call at once.
   */
  lemma {:induction false} AckDecides(flow: Flow, eventId: string, before: seq<Signal>, accepted: bool, message: string)
    requires Run(flow, eventId, Start(flow), before).phase != Returned
    ensures var m := Run(flow, eventId, Start(flow), before + [Ack(accepted, message)]);
      && (m.phase == Returned <==> Run(flow, eventId, Start(flow), before).phase == Waiting)
      && m.cancelled
      && m.status == (if accepted then Succeeded else Failed)
      && (!accepted ==> m.err == Some("msg: " + message))
  {
    RunAppend(flow, eventId, Start(flow), before, [Ack(accepted, message)]);
  }

  /**
   * An OK that arrives before the write returns ends the call as soon as the
   * write succeeds: a publish with the callback's status, an authenticate with
   * sent, which the write assigns after the callback ran.
   */
  lemma {:induction false} AckBeforeWriteReturns(flow: Flow, eventId: string, before: seq<Signal>, accepted: bool, message: string)
    requires Run(flow, eventId, Start(flow), before).phase == Writing
    ensures var m := Run(flow, eventId, Start(flow), before + [Ack(accepted, message), WriteOutcome(None)]);
      && m.phase == Returned
      && m.status == (if flow == AuthFlow then Sent else if accepted then Succeeded else Failed)
  {
    RunAppend(flow, eventId, Start(flow), before, [Ack(accepted, message), WriteOutcome(None)]);
    assert [Ack(accepted, message), WriteOutcome(None)][1..] == [WriteOutcome(None)];
  }

  /** A deadline or cancellation returns the status and error as last written. */
  lemma {:induction false} DeadlineKeepsOutcome(flow: Flow, eventId: string, before: seq<Signal>)
    requires Run(flow, eventId, Start(flow), before).phase == Waiting
    ensures Run(flow, eventId, Start(flow), before + [ContextDone]) ==
            Run(flow, eventId, Start(flow), before).(phase := Returned)
  {
    RunAppend(flow, eventId, Start(flow), before, [ContextDone]);
  }

  /** Losing the connection ends a waiting publish with its status as last written, and does not end an authenticate. */
  lemma {:induction false} ConnectionLossOutcome(flow: Flow, eventId: string, before: seq<Signal>)
    requires Run(flow, eventId, Start(flow), before).phase == Waiting
    ensures Run(flow, eventId, Start(flow), before + [ConnectionLost]) ==
            if flow == PublishFlow then Run(flow, eventId, Start(flow), before).(phase := Returned)
            else Run(flow, eventId, Start(flow), before)
  {
    RunAppend(flow, eventId, Start(flow), before, [ConnectionLost]);
  }

  /** A waiting publish that reads back its own event returns succeeded. */
  lemma {:induction false} EchoSucceeds(eventId: string, before: seq<Signal>, echoed: Event)
    requires Run(PublishFlow, eventId, Start(PublishFlow), before).phase == Waiting
    requires echoed.id == eventId
    ensures var m := Run(PublishFlow, eventId, Start(PublishFlow), before + [Echo(Some(echoed))]);
      m.phase == Returned && m.status == Succeeded
  {
    RunAppend(PublishFlow, eventId, Start(PublishFlow), before, [Echo(Some(echoed))]);
  }

  /** A rejection while the publish waits returns it failed at once; an echo that comes later is not read. */
  lemma RejectionEndsPublish(eventId: string, echoed: Event)
    requires echoed.id == eventId
    ensures Run(PublishFlow, eventId, Start(PublishFlow),
                [WriteOutcome(None), Ack(false, "blocked"), Echo(Some(echoed))]) ==
            Machine(Returned, Failed, Some("msg: blocked"), true)
  {
    var signals := [WriteOutcome(None), Ack(false, "blocked"), Echo(Some(echoed))];
    var written := Machine(Waiting, Sent, None, false);
    var rejected := Machine(Returned, Failed, Some("msg: blocked"), true);
    assert "msg: " + "blocked" == "msg: blocked";
    assert PublishStep(eventId, Start(PublishFlow), signals[0]) == written;
    assert PublishStep(eventId, written, signals[1]) == rejected;
    assert signals[1..][1..] == [Echo(Some(echoed))];
  }

  /** A rejected AUTH: failed, with the relay's message in the error, without waiting for the deadline. */
  lemma AuthRejected(eventId: string)
    ensures Run(AuthFlow, eventId, Start(AuthFlow),
                [WriteOutcome(None), Ack(false, "restricted")]) ==
            Machine(Returned, Failed, Some("msg: restricted"), true)
  {
    assert "msg: " + "restricted" == "msg: restricted";
  }

  /**
   * An OK that reaches the authenticate callback before the write returns is
   * overwritten by the write's status assignment, and its cancellation ends the
   * wait at once: the call reports sent.
   */
  lemma AuthEarlyAckOverwritten(eventId: string)
    ensures Run(AuthFlow, eventId, Start(AuthFlow), [Ack(true, ""), WriteOutcome(None)]) ==
            Machine(Returned, Sent, None, true)
  {
  }
}

=== FILE: dispatcher.dfy ===
/**
 * What the relay's inbound dispatcher decides, one read at a time, as a
 * function on the relay state it touches: the subscription table, the
 * OK-callback registry, the trust flag and the broadcast streams.
 */
module Dispatcher {
  import opened Wrappers
  import opened Wire

  /**
   * One subscription as the dispatcher sees it. `eoseFired` is the once-flag
   * guarding the end-of-stored-events signal, `eoseSignals` counts the signals
   * actually sent, and `events` is everything delivered to its output stream.
   */
  datatype Subscription = Subscription(
    counter: nat,
    filters: Filters,
    stopped: bool,
    eoseFired: bool,
    eoseSignals: nat,
    events: seq<Event>)

  /** A confirmation callback, identified by the call that registered it. */
  datatype Callback = PublishCallback(eventId: string) | AuthCallback(eventId: string)

  /** One run of a registered callback with its acceptance flag and message. */
  datatype Invocation = Invocation(callback: Callback, accepted: bool, message: string)

  datatype RelayState = RelayState(
    subscriptions: map<string, Subscription>,
    okCallbacks: map<string, Callback>,
    assumeValid: bool,
    notices: seq<string>,
    challenges: seq<string>,
    errors: seq<string>,
    invocations: seq<Invocation>)

  /** The two collaborators the dispatcher consults: filter matching and signature checking. */
  datatype Checks = Checks(matches: (Filters, Event) -> bool, signatureValid: Event -> bool)

  /** The end-of-stored-events signal of a subscription has been sent once if it fired, never otherwise. */
  predicate EoseOnce(s: Subscription) {
    s.eoseSignals == if s.eoseFired then 1 else 0
  }

  /** Every registered subscription keeps EoseOnce. */
  predicate Valid(st: RelayState) {
    forall id | id in st.subscriptions :: EoseOnce(st.subscriptions[id])
  }

  /**
   * What the dispatcher may do to one subscription: its identity, filters and
   * stop flag stay, its output only grows, and its once-flag only goes up.
   */
  predicate Grows(s: Subscription, s': Subscription) {
    && s'.counter == s.counter
    && s'.filters == s.filters
    && s'.stopped == s.stopped
    && s.events <= s'.events
    && (s.eoseFired ==> s'.eoseFired)
    && s.eoseSignals <= s'.eoseSignals
  }

  /** The delivery gate for an EVENT: registered, matching, not stopped, and trusted or correctly signed. */
  predicate Delivers(st: RelayState, subId: string, event: Event, checks: Checks) {
    && subId in st.subscriptions
    && checks.matches(st.subscriptions[subId].filters, event)
    && !st.subscriptions[subId].stopped
    && (st.assumeValid || checks.signatureValid(event))
  }

  /** Routes an EVENT for `subId`. */
  function Deliver(st: RelayState, subId: string, event: Event, checks: Checks): (st': RelayState)
    ensures st'.subscriptions.Keys == st.subscriptions.Keys
    ensures st'.okCallbacks == st.okCallbacks && st'.invocations == st.invocations
    ensures st'.assumeValid == st.assumeValid
    ensures st'.notices == st.notices && st'.challenges == st.challenges && st'.errors == st.errors
    ensures forall id | id in st.subscriptions ::
      st'.subscriptions[id] ==
        if id == subId && Delivers(st, subId, event, checks)
        then st.subscriptions[id].(events := st.subscriptions[id].events + [event])
        else st.subscriptions[id]
  {
    if subId !in st.subscriptions then st
    else
      var sub := st.subscriptions[subId];
      if !checks.matches(sub.filters, event) then st
      else if sub.stopped then st
      else if !st.assumeValid && !checks.signatureValid(event) then st
      else st.(subscriptions := st.subscriptions[subId := sub.(events := sub.events + [event])])
  }

  /**
   * Routes an EVENT as relay.go writes it. When the filter does not match, the
   * log line reads the subscription's first filter, so a subscription with no
   * filters panics and takes the dispatcher down: `None` is that crash.
   */
  function DeliverAsWritten(st: RelayState, subId: string, event: Event, checks: Checks): (r: Option<RelayState>)
    ensures r.None? <==>
      && subId in st.subscriptions
      && !checks.matches(st.subscriptions[subId].filters, event)
      && |st.subscriptions[subId].filters| == 0
    ensures r.Some? ==> r.value == Deliver(st, subId, event, checks)
  {
    if subId !in st.subscriptions then Some(st)
    else
      var sub := st.subscriptions[subId];
      if !checks.matches(sub.filters, event) then
        if |sub.filters| == 0 then None else Some(st)
      else Some(Deliver(st, subId, event, checks))
  }

  /**
   * A subscription opened with no filters, which Subscribe accepts, and an event
   * it does not match: the dispatcher as written crashes, while `Deliver`
   * ignores the event and leaves the relay as it was.
   */
  lemma EmptyFiltersCrash(event: Event)
    ensures var st := RelayState(map["0" := Subscription(0, [], false, false, 0, [])], map[], false, [], [], [], []);
      var checks := Checks((fs: Filters, e: Event) => |fs| > 0, (e: Event) => true);
      && DeliverAsWritten(st, "0", event, checks) == None
      && Deliver(st, "0", event, checks) == st
  {
  }

  /** Routes an EOSE for `subId`: the signal is sent only the first time. */
  function EndOfStoredEvents(st: RelayState, subId: string): (st': RelayState)
    ensures st'.subscriptions.Keys == st.subscriptions.Keys
    ensures st'.okCallbacks == st.okCallbacks && st'.invocations == st.invocations
    ensures st'.assumeValid == st.assumeValid
    ensures st'.notices == st.notices && st'.challenges == st.challenges && st'.errors == st.errors
    ensures forall id | id in st.subscriptions && id != subId :: st'.subscriptions[id] == st.subscriptions[id]
    ensures subId in st.subscriptions ==>
      var s, s' := st.subscriptions[subId], st'.subscriptions[subId];
      && s'.eoseFired
      && s'.eoseSignals == (if s.eoseFired then s.eoseSignals else s.eoseSignals + 1)
      && s'.events == s.events && s'.stopped == s.stopped
      && s'.filters == s.filters && s'.counter == s.counter
  {
    if subId in st.subscriptions then
      var sub := st.subscriptions[subId];
      if sub.eoseFired then st
      else st.(subscriptions := st.subscriptions[subId := sub.(eoseFired := true, eoseSignals := sub.eoseSignals + 1)])
    else st
  }

  /** Routes an OK: runs the callback registered under the event id, if there is one. */
  function Acknowledge(st: RelayState, eventId: string, accepted: bool, message: string): (st': RelayState)
    ensures st'.subscriptions == st.subscriptions && st'.okCallbacks == st.okCallbacks
    ensures st'.assumeValid == st.assumeValid
    ensures st'.notices == st.notices && st'.challenges == st.challenges && st'.errors == st.errors
    ensures eventId in st.okCallbacks <==> |st'.invocations| == |st.invocations| + 1
    ensures eventId in st.okCallbacks ==>
      st'.invocations[|st.invocations|] == Invocation(st.okCallbacks[eventId], accepted, message)
    ensures st.invocations <= st'.invocations
  {
    if eventId in st.okCallbacks then
      st.(invocations := st.invocations + [Invocation(st.okCallbacks[eventId], accepted, message)])
    else st
  }

  /** Applies one routed command. */
  function Apply(st: RelayState, cmd: Command, checks: Checks): (st': RelayState)
    ensures st'.subscriptions.Keys == st.subscriptions.Keys
    ensures st'.okCallbacks == st.okCallbacks && st'.assumeValid == st.assumeValid
    ensures st'.errors == st.errors
    ensures st'.notices == st.notices + (if cmd.Notice? then [cmd.content] else [])
    ensures st'.challenges == st.challenges + (if cmd.Challenge? then [cmd.challenge] else [])
    ensures forall id | id in st.subscriptions :: Grows(st.subscriptions[id], st'.subscriptions[id])
    ensures forall id | id in st.subscriptions ::
      st'.subscriptions[id].events == st.subscriptions[id].events +
        (if cmd.EventFor? && cmd.subId == id && Delivers(st, id, cmd.event, checks) then [cmd.event] else [])
    ensures forall id | id in st.subscriptions ::
      st'.subscriptions[id].eoseFired == (st.subscriptions[id].eoseFired || (cmd.EndOfStored? && cmd.subId == id))
    ensures Valid(st) ==> Valid(st')
    ensures st.invocations <= st'.invocations
    ensures |st'.invocations| > |st.invocations| ==> cmd.Ok? && cmd.eventId in st.okCallbacks
  {
    match cmd
    case Notice(content) => st.(notices := st.notices + [content])
    case Challenge(challenge) => st.(challenges := st.challenges + [challenge])
    case EventFor(subId, event) => Deliver(st, subId, event, checks)
    case EndOfStored(subId) => EndOfStoredEvents(st, subId)
    case Ok(eventId, accepted, message) => Acknowledge(st, eventId, accepted, message)
    case Unknown(_) => st
  }

  /** One iteration of the dispatcher loop. */
  function Step(st: RelayState, r: Read, checks: Checks): (st': RelayState)
    ensures r.Received? && Dropped(r.frame) ==> st' == st
    ensures st'.subscriptions.Keys == st.subscriptions.Keys
    ensures st'.okCallbacks == st.okCallbacks && st'.assumeValid == st.assumeValid
    ensures forall id | id in st.subscriptions :: Grows(st.subscriptions[id], st'.subscriptions[id])
    ensures forall id | id in st.subscriptions && st.subscriptions[id].stopped ::
      st'.subscriptions[id].events == st.subscriptions[id].events
    ensures Valid(st) ==> Valid(st')
    ensures st'.errors == st.errors + (if r.ReadFailure? then [r.error] else [])
  {
    match r
    case ReadFailure(error) => st.(errors := st.errors + [error])
    case Received(frame) =>
      match Parse(frame)
      case None => st
      case Some(cmd) => Apply(st, cmd, checks)
  }

  /** The dispatcher loop run over a finite prefix of the reads. */
  function Steps(st: RelayState, inputs: seq<Read>, checks: Checks): (st': RelayState)
    decreases |inputs|
    ensures st'.subscriptions.Keys == st.subscriptions.Keys
    ensures st'.okCallbacks == st.okCallbacks && st'.assumeValid == st.assumeValid
    ensures forall id | id in st.subscriptions :: Grows(st.subscriptions[id], st'.subscriptions[id])
    ensures forall id | id in st.subscriptions && st.subscriptions[id].stopped ::
      st'.subscriptions[id].events == st.subscriptions[id].events
    ensures Valid(st) ==> Valid(st')
  {
    if inputs == [] then st
    else Steps(Step(st, inputs[0], checks), inputs[1..], checks)
  }

  /** A frame that decodes to an EOSE for `subId`, sent twice, signals exactly once. */
  lemma {:induction false} RepeatedEose(st: RelayState, subId: string, f: Frame, checks: Checks)
    requires Parse(f) == Some(EndOfStored(subId))
    requires subId in st.subscriptions && !st.subscriptions[subId].eoseFired
    ensures Steps(st, [Received(f), Received(f)], checks).subscriptions[subId].eoseSignals ==
            st.subscriptions[subId].eoseSignals + 1
  {
    var once := Step(st, Received(f), checks);
    var twice := Step(once, Received(f), checks);
    assert [Received(f), Received(f)][1..] == [Received(f)];
    assert Steps(st, [Received(f), Received(f)], checks) == Steps(once, [Received(f)], checks);
    assert Steps(once, [Received(f)], checks) == Steps(twice, [], checks);
  }
}

=== FILE: nostr.dfy ===
/**
 * The relay façade: one connection to a Nostr relay, its subscription table,
 * its OK-callback registry and its broadcast streams, updated in place by the
 * dispatcher and by the public calls. Every method is proved against the pure
 * definitions in Dispatcher, Confirmation and Subscriptions.
 *
 * The transport is not modelled: what the relay reads arrives as a `Read`, and
 * what a call observes while it waits arrives as a sequence of signals.
 */
module Nostr {
  import opened Wrappers
  import opened Wire
  import opened Dispatcher
  import opened Confirmation
  import opened Subscriptions

  /** The process-wide subscription counter. */
  class SubscriptionCounter {
    var current: nat

    constructor ()
      ensures current == 0
    {
      current := 0;
    }
  }

  class Relay {
    const url: string
    const checks: Checks
    /** Skip signature checks for events from this relay. */
    var assumeValid: bool
    /** A transport is attached. */
    var connected: bool
    /** The connection-scoped context has ended. */
    var connectionClosed: bool
    var subscriptions: map<string, Subscription>
    var okCallbacks: map<string, Callback>
    var notices: seq<string>
    var challenges: seq<string>
    var errors: seq<string>
    /** Every run of a registered OK callback, in order. */
    var invocations: seq<Invocation>

    /** The part of the relay the dispatcher reads and writes. */
    function State(): RelayState
      reads this
    {
      RelayState(subscriptions, okCallbacks, assumeValid, notices, challenges, errors, invocations)
    }

    ghost predicate Valid()
      reads this
    {
      Dispatcher.Valid(State())
    }

    constructor (url: string, checks: Checks)
      ensures this.url == url && this.checks == checks
      ensures Valid() && !assumeValid && !connected && !connectionClosed
      ensures State() == RelayState(map[], map[], false, [], [], [], [])
    {
      this.url := url;
      this.checks := checks;
      assumeValid := false;
      connected, connectionClosed := false, false;
      subscriptions, okCallbacks := map[], map[];
      notices, challenges, errors, invocations := [], [], [], [];
    }

    /**
     * Connects. An empty URL fails at once without dialing and ends the
     * connection-scoped context; otherwise the transport is attached (it keeps
     * reconnecting by itself, so no dial error reaches the caller) and the
     * broadcast streams start afresh.
     */
    method Connect() returns (err: Option<string>)
      requires Valid()
      modifies this
      ensures Valid()
      ensures err.Some? <==> url == ""
      ensures url == "" ==> err == Some("invalid relay URL ''") && connectionClosed && connected == old(connected)
      ensures url == "" ==> State() == old(State())
      ensures url != "" ==> connected && !connectionClosed && notices == [] && challenges == [] && errors == []
      ensures subscriptions == old(subscriptions) && okCallbacks == old(okCallbacks)
      ensures invocations == old(invocations) && assumeValid == old(assumeValid)
    {
      connectionClosed := false;
      if url == "" {
        connectionClosed := true;
        assert "invalid relay URL '" + url + "'" == "invalid relay URL ''";
        return Some("invalid relay URL '" + url + "'");
      }
      notices, challenges, errors := [], [], [];
      connected := true;
      return None;
    }

    /** One iteration of the dispatcher loop: handles one read from the transport. */
    method HandleRead(r: Read)
      requires Valid()
      modifies this
      ensures Valid()
      ensures State() == Dispatcher.Step(old(State()), r, checks)
      ensures connected == old(connected) && connectionClosed == old(connectionClosed)
    {
      if r.ReadFailure? {
        errors := errors + [r.error];
        return;
      }
      var frame := r.frame;
      if frame.kind == PingMessage {
        return;
      }
      if frame.kind != TextMessage || |frame.data| == 0 || frame.data[0] != OpenBracket {
        return;
      }
      if frame.decoded.None? {
        return;
      }
      var msg := frame.decoded.value;
      if |msg| < 2 {
        return;
      }
      var command := msg[0].text;
      if command == "NOTICE" {
        notices := notices + [msg[1].text];
      } else if command == "AUTH" {
        challenges := challenges + [msg[1].text];
      } else if command == "EVENT" {
        if |msg| < 3 {
          return;
        }
        var subId := msg[1].text;
        if subId !in subscriptions {
          return;
        }
        var sub := subscriptions[subId];
        var event := msg[2].event;
        if !checks.matches(sub.filters, event) {
          return;
        }
        if sub.stopped {
          return;
        }
        if !assumeValid && !checks.signatureValid(event) {
          return;
        }
        subscriptions := subscriptions[subId := sub.(events := sub.events + [event])];
      } else if command == "EOSE" {
        if |msg| < 2 {
          return;
        }
        var subId := msg[1].text;
        if subId in subscriptions {
          var sub := subscriptions[subId];
          if !sub.eoseFired {
            subscriptions := subscriptions[subId := sub.(eoseFired := true, eoseSignals := sub.eoseSignals + 1)];
          }
        }
      } else if command == "OK" {
        if |msg| < 3 {
          return;
        }
        var eventId := msg[1].text;
        var ok := msg[2].flag;
        var message := "";
        if |msg| > 3 {
          message := msg[3].text;
        }
        if eventId in okCallbacks {
          invocations := invocations + [Invocation(okCallbacks[eventId], ok, message)];
        }
      }
    }

    /** The dispatcher loop, over the reads the transport delivers. It never leaves on its own. */
    method Listen(inputs: seq<Read>)
      requires Valid()
      modifies this
      ensures Valid()
      ensures State() == Steps(old(State()), inputs, checks)
      ensures connected == old(connected) && connectionClosed == old(connectionClosed)
    {
      var i := 0;
      assert inputs[i..] == inputs;
      while i < |inputs|
        invariant 0 <= i <= |inputs|
        invariant Valid()
        invariant Steps(State(), inputs[i..], checks) == Steps(old(State()), inputs, checks)
        invariant connected == old(connected) && connectionClosed == old(connectionClosed)
      {
        assert inputs[i..][1..] == inputs[i + 1..];
        HandleRead(inputs[i]);
        i := i + 1;
      }
    }

    /**
     * Publishes `event` and waits for the relay's verdict: an OK, or the event
     * read back on a subscription for its id. The callback registered under the
     * event id is removed on every way out. It writes through the transport,
     * so only a connected relay can publish.
     */
    method Publish(event: Event, signals: seq<Signal>) returns (status: Status, err: Option<string>)
      requires Valid() && connected
      modifies this
      ensures Valid()
      ensures var m := Run(PublishFlow, event.id, Start(PublishFlow), signals);
        status == m.status && err == m.err
      ensures okCallbacks == old(okCallbacks) - {event.id}
      ensures subscriptions == old(subscriptions) && invocations == old(invocations)
      ensures notices == old(notices) && challenges == old(challenges) && errors == old(errors)
      ensures assumeValid == old(assumeValid) && connected == old(connected) && connectionClosed == old(connectionClosed)
    {
      status, err := Sent, None;
      okCallbacks := okCallbacks[event.id := PublishCallback(event.id)];
      var written, cancelled := false, false;
      var i := 0;
      assert signals[i..] == signals;
      while i < |signals|
        invariant 0 <= i <= |signals|
        invariant !(written && cancelled)
        invariant okCallbacks == old(okCallbacks)[event.id := PublishCallback(event.id)]
        invariant subscriptions == old(subscriptions) && invocations == old(invocations)
        invariant notices == old(notices) && challenges == old(challenges) && errors == old(errors)
        invariant assumeValid == old(assumeValid) && connected == old(connected) && connectionClosed == old(connectionClosed)
        invariant Run(PublishFlow, event.id, Machine(if written then Waiting else Writing, status, err, cancelled), signals[i..]) ==
                  Run(PublishFlow, event.id, Start(PublishFlow), signals)
      {
        assert signals[i..] == [signals[i]] + signals[i + 1..];
        match signals[i] {
          case Ack(accepted, message) =>
            if accepted {
              status := Succeeded;
            } else {
              status := Failed;
              err := Some("msg: " + message);
            }
            cancelled := true;
            if written {
              okCallbacks := okCallbacks - {event.id};
              return;
            }
          case WriteOutcome(failure) =>
            if !written {
              if failure.Some? {
                okCallbacks := okCallbacks - {event.id};
                return status, failure;
              }
              if cancelled {
                okCallbacks := okCallbacks - {event.id};
                return;
              }
              written := true;
            }
          case Echo(received) =>
            if written {
              if received.None? {
                okCallbacks := okCallbacks - {event.id};
                return;
              }
              if received.value.id == event.id {
                status := Succeeded;
                okCallbacks := okCallbacks - {event.id};
                return;
              }
            }
          case ContextDone =>
            if written {
              okCallbacks := okCallbacks - {event.id};
              return;
            }
          case ConnectionLost =>
            if written {
              okCallbacks := okCallbacks - {event.id};
              return;
            }
        }
        i := i + 1;
      }
      okCallbacks := okCallbacks - {event.id};
    }

    /**
     * Sends an AUTH event and waits until its own context ends; an OK callback
     * may settle the status meanwhile. The callback registered under the event
     * id is removed on every way out. It writes through the transport, so only
     * a connected relay can authenticate.
     */
    method Auth(event: Event, signals: seq<Signal>) returns (status: Status, err: Option<string>)
      requires Valid() && connected
      modifies this
      ensures Valid()
      ensures var m := Run(AuthFlow, event.id, Start(AuthFlow), signals);
        status == m.status && err == m.err
      ensures okCallbacks == old(okCallbacks) - {event.id}
      ensures subscriptions == old(subscriptions) && invocations == old(invocations)
      ensures notices == old(notices) && challenges == old(challenges) && errors == old(errors)
      ensures assumeValid == old(assumeValid) && connected == old(connected) && connectionClosed == old(connectionClosed)
    {
      status, err := Failed, None;
      okCallbacks := okCallbacks[event.id := AuthCallback(event.id)];
      var written, cancelled := false, false;
      var i := 0;
      assert signals[i..] == signals;
      while i < |signals|
        invariant 0 <= i <= |signals|
        invariant !(written && cancelled)
        invariant okCallbacks == old(okCallbacks)[event.id := AuthCallback(event.id)]
        invariant subscriptions == old(subscriptions) && invocations == old(invocations)
        invariant notices == old(notices) && challenges == old(challenges) && errors == old(errors)
        invariant assumeValid == old(assumeValid) && connected == old(connected) && connectionClosed == old(connectionClosed)
        invariant Run(AuthFlow, event.id, Machine(if written then Waiting else Writing, status, err, cancelled), signals[i..]) ==
                  Run(AuthFlow, event.id, Start(AuthFlow), signals)
      {
        assert signals[i..] == [signals[i]] + signals[i + 1..];
        match signals[i] {
          case Ack(accepted, message) =>
            if accepted {
              status := Succeeded;
            } else {
              status := Failed;
              err := Some("msg: " + message);
            }
            cancelled := true;
            if written {
              okCallbacks := okCallbacks - {event.id};
              return;
            }
          case WriteOutcome(failure) =>
            if !written {
              if failure.Some? {
                okCallbacks := okCallbacks - {event.id};
                return status, failure;
              }
              status := Sent;
              if cancelled {
                okCallbacks := okCallbacks - {event.id};
                return;
              }
              written := true;
            }
          case Echo(_) =>
          case ContextDone =>
            if written {
              okCallbacks := okCallbacks - {event.id};
              return;
            }
          case ConnectionLost =>
        }
        i := i + 1;
      }
      okCallbacks := okCallbacks - {event.id};
    }

    /**
     * Every registered subscription sits under the id rendered from its own
     * counter, and that counter has already been handed out.
     */
    ghost predicate Keyed(ids: SubscriptionCounter)
      reads this, ids
    {
      forall id | id in subscriptions ::
        id == SubscriptionId(subscriptions[id].counter) && subscriptions[id].counter < ids.current
    }

    /** Takes the next subscription counter for a new, unregistered subscription. */
    method PrepareSubscription(ids: SubscriptionCounter) returns (sub: Subscription)
      modifies ids
      ensures [sub.counter] == Issued(old(ids.current), 1)
      ensures ids.current == old(ids.current) + 1
      ensures sub == Subscription(old(ids.current), [], false, false, 0, [])
    {
      var current := ids.current;
      ids.current := ids.current + 1;
      sub := Subscription(current, [], false, false, 0, []);
    }

    /** Prepares `count` subscriptions one after the other: they hold the counters `Issued` lists, in order. */
    method PrepareSubscriptions(ids: SubscriptionCounter, count: nat) returns (subs: seq<Subscription>)
      modifies ids
      ensures |subs| == count
      ensures forall i | 0 <= i < count ::
        subs[i] == Subscription(Issued(old(ids.current), count)[i], [], false, false, 0, [])
      ensures ids.current == old(ids.current) + count
    {
      subs := [];
      while |subs| < count
        invariant |subs| <= count
        invariant ids.current == old(ids.current) + |subs|
        invariant forall i | 0 <= i < |subs| :: subs[i] == Subscription(old(ids.current) + i, [], false, false, 0, [])
      {
        var sub := PrepareSubscription(ids);
        subs := subs + [sub];
      }
    }

    /** Registers `sub`, whose counter has been handed out, in the table under the id rendered from its counter. */
    method Fire(ids: SubscriptionCounter, sub: Subscription)
      requires Valid() && EoseOnce(sub)
      requires Keyed(ids) && sub.counter < ids.current
      modifies this
      ensures Valid() && Keyed(ids)
      ensures subscriptions == old(subscriptions)[SubscriptionId(sub.counter) := sub]
      ensures okCallbacks == old(okCallbacks) && invocations == old(invocations)
      ensures notices == old(notices) && challenges == old(challenges) && errors == old(errors)
      ensures assumeValid == old(assumeValid) && connected == old(connected) && connectionClosed == old(connectionClosed)
    {
      subscriptions := subscriptions[SubscriptionId(sub.counter) := sub];
    }

    /** Stops the subscription under `subId`: nothing more is delivered to it. */
    method Unsub(subId: string)
      requires Valid()
      modifies this
      ensures Valid()
      ensures subscriptions.Keys == old(subscriptions).Keys
      ensures subId in subscriptions ==> subscriptions[subId] == old(subscriptions)[subId].(stopped := true)
      ensures forall id | id in subscriptions && id != subId :: subscriptions[id] == old(subscriptions)[id]
      ensures okCallbacks == old(okCallbacks) && invocations == old(invocations)
      ensures notices == old(notices) && challenges == old(challenges) && errors == old(errors)
      ensures assumeValid == old(assumeValid) && connected == old(connected) && connectionClosed == old(connectionClosed)
    {
      if subId in subscriptions {
        subscriptions := subscriptions[subId := subscriptions[subId].(stopped := true)];
      }
    }

    /**
     * Opens a subscription for `filters`; only a connected relay can. Its id is
     * new to the table, so no live subscription is replaced.
     */
    method Subscribe(ids: SubscriptionCounter, filters: Filters) returns (sub: Subscription)
      requires Valid() && connected && Keyed(ids)
      modifies this, ids
      ensures Valid() && Keyed(ids)
      ensures ids.current == old(ids.current) + 1
      ensures sub == Subscription(old(ids.current), filters, false, false, 0, [])
      ensures SubscriptionId(sub.counter) !in old(subscriptions)
      ensures subscriptions == old(subscriptions)[SubscriptionId(sub.counter) := sub]
      ensures okCallbacks == old(okCallbacks) && invocations == old(invocations)
      ensures notices == old(notices) && challenges == old(challenges) && errors == old(errors)
      ensures assumeValid == old(assumeValid) && connected == old(connected) && connectionClosed == old(connectionClosed)
    {
      forall id | id in subscriptions ensures id != SubscriptionId(ids.current) {
        SubscriptionIdInjective(subscriptions[id].counter, ids.current);
      }
      sub := PrepareSubscription(ids);
      sub := sub.(filters := filters);
      Fire(ids, sub);
    }

    /**
     * Subscribes for one filter, collects events until the stream closes, the
     * stored events end or the deadline passes, then stops the subscription.
     */
    method QuerySync(ids: SubscriptionCounter, filter: Filter, arrivals: seq<Arrival>)
      returns (events: seq<Event>)
      requires Valid() && connected && Keyed(ids)
      modifies this, ids
      ensures Valid() && Keyed(ids)
      ensures events == Collected(arrivals)
      ensures ids.current == old(ids.current) + 1
      ensures SubscriptionId(old(ids.current)) !in old(subscriptions)
      ensures subscriptions ==
        old(subscriptions)[SubscriptionId(old(ids.current)) := Subscription(old(ids.current), [filter], true, false, 0, [])]
      ensures okCallbacks == old(okCallbacks) && invocations == old(invocations)
      ensures notices == old(notices) && challenges == old(challenges) && errors == old(errors)
      ensures assumeValid == old(assumeValid) && connected == old(connected) && connectionClosed == old(connectionClosed)
    {
      var sub := Subscribe(ids, [filter]);
      events := Collect(arrivals);
      Unsub(SubscriptionId(sub.counter));
    }
  }
}

=== FILE: subscriptions.dfy ===
/**
 * The two pieces of subscription bookkeeping the relay does itself: handing out
 * subscription counters, and collecting the answer to a one-shot query.
 */
module Subscriptions {
  import opened Wrappers
  import opened Wire

  /**
   * The counters that `count` successive subscriptions receive when the counter
   * stands at `start`: each takes the current value and moves the counter on by one.
   */
  function Issued(start: nat, count: nat): (counters: seq<nat>)
    decreases count
    ensures |counters| == count
    ensures forall i | 0 <= i < count :: counters[i] == start + i
  {
    if count == 0 then [] else [start] + Issued(start + 1, count - 1)
  }

  /** Successive subscriptions get strictly increasing, hence distinct, counters, none below the start. */
  lemma IssuedIncreasing(start: nat, count: nat)
    ensures forall i, j | 0 <= i < j < count :: start <= Issued(start, count)[i] < Issued(start, count)[j]
  {
    var counters := Issued(start, count);
    forall i, j | 0 <= i < j < count ensures start <= counters[i] < counters[j] {
      assert counters[i] == start + i && counters[j] == start + j;
    }
  }

  /** The decimal digit for `d`. */
  function Digit(d: nat): (c: char)
    requires d < 10
    ensures c as int == '0' as int + d
  {
    ('0' as int + d) as char
  }

  /**
   * The id string a subscription is registered under: its counter in decimal.
   * The table relies only on distinct counters giving distinct ids.
   */
  function SubscriptionId(counter: nat): (id: string)
    decreases counter
    ensures 1 <= |id|
    ensures id[|id| - 1] == Digit(counter % 10)
  {
    if counter < 10 then [Digit(counter)]
    else SubscriptionId(counter / 10) + [Digit(counter % 10)]
  }

  /** Distinct counters are rendered as distinct ids. */
  lemma {:induction false} SubscriptionIdInjective(a: nat, b: nat)
    ensures SubscriptionId(a) == SubscriptionId(b) ==> a == b
    decreases a
  {
    var ia, ib := SubscriptionId(a), SubscriptionId(b);
    if ia == ib {
      assert a % 10 == b % 10;
      if 10 <= a && 10 <= b {
        assert ia[..|ia| - 1] == SubscriptionId(a / 10);
        assert ib[..|ib| - 1] == SubscriptionId(b / 10);
        SubscriptionIdInjective(a / 10, b / 10);
      }
    }
  }

  /** What a one-shot query reads from its subscription, in arrival order. */
  datatype Arrival =
    | Delivered(event: Option<Event>)  // a value from the event stream; None once the stream is closed
    | EndOfStoredEvents                // the end-of-stored-events signal
    | Deadline                         // the query's deadline passed or it was cancelled

  /** An arrival that ends the query: the stream closing, the end of stored events, or the deadline. */
  predicate Stops(a: Arrival) {
    a.EndOfStoredEvents? || a.Deadline? || a == Delivered(None)
  }

  /**
   * The events a query returns: the delivered events, in arrival order, up to
   * the first arrival that stops it.
   */
  function Collected(arrivals: seq<Arrival>): (events: seq<Event>)
    decreases |arrivals|
    ensures |events| <= |arrivals|
    ensures forall i | 0 <= i < |events| :: arrivals[i] == Delivered(Some(events[i]))
    ensures |events| < |arrivals| ==> Stops(arrivals[|events|])
  {
    if arrivals == [] || Stops(arrivals[0]) then []
    else [arrivals[0].event.value] + Collected(arrivals[1..])
  }

  /** Collected, unfolded once at position `i`. */
  lemma CollectedAt(arrivals: seq<Arrival>, i: nat)
    requires i < |arrivals|
    ensures Collected(arrivals[i..]) ==
      if Stops(arrivals[i]) then [] else [arrivals[i].event.value] + Collected(arrivals[i + 1..])
  {
  }

  /** Arrivals after the query has stopped change nothing, and later arrivals only extend what an unstopped query holds. */
  lemma {:induction false} CollectedExtends(arrivals: seq<Arrival>, later: seq<Arrival>)
    ensures Collected(arrivals) <= Collected(arrivals + later)
    ensures |Collected(arrivals)| < |arrivals| ==> Collected(arrivals + later) == Collected(arrivals)
    decreases |arrivals|
  {
    if arrivals == [] {
    } else {
      assert (arrivals + later)[0] == arrivals[0];
      if !Stops(arrivals[0]) {
        assert (arrivals + later)[1..] == arrivals[1..] + later;
        CollectedExtends(arrivals[1..], later);
      }
    }
  }

  /** The collection loop of a one-shot query. */
  method Collect(arrivals: seq<Arrival>) returns (events: seq<Event>)
    ensures events == Collected(arrivals)
  {
    events := [];
    var i := 0;
    assert arrivals[i..] == arrivals;
    while i < |arrivals|
      invariant 0 <= i <= |arrivals|
      invariant events + Collected(arrivals[i..]) == Collected(arrivals)
    {
      CollectedAt(arrivals, i);
      if Stops(arrivals[i]) {
        return;
      }
      events := events + [arrivals[i].event.value];
      i := i + 1;
    }
  }
}

=== FILE: wire.dfy ===
/** Option, the one wrapper the model needs. */
module Wrappers {
  datatype Option<+T> = None | Some(value: T)
}

/**
 * The inbound side of the Nostr relay protocol (NIP-01, NIP-42) as the
 * dispatcher sees it: websocket frames, their decoded array elements, and the
 * commands a frame is routed to.
 *
 * JSON decoding is not modelled. A frame carries its raw bytes (the drop rules
 * look at them) together with what the decoder makes of them: no array at all
 * when decoding fails, otherwise the array's elements. Each element is recorded
 * as what it decodes to as a string, as a boolean and as an event; a Go target
 * that does not fit keeps its zero value, which is what `json.Unmarshal` leaves
 * behind when its error is ignored.
 */
module Wire {
  import opened Wrappers

  newtype byte = b: int | 0 <= b < 256

  /** The byte `[` that must open every routed frame. */
  const OpenBracket: byte := 0x5B

  /** A Nostr event. Its signature check lives outside this model. */
  datatype Event = Event(
    id: string,
    pubkey: string,
    createdAt: int,
    kind: int,
    tags: seq<seq<string>>,
    content: string,
    sig: string)

  /** A subscription filter; the filter language and its match live outside this model. */
  type Filter(==)

  type Filters = seq<Filter>

  /** One element of a decoded array, seen through each Go type the dispatcher decodes it into. */
  datatype Element = Element(text: string, flag: bool, event: Event)

  /** The websocket message types. */
  datatype MessageType = TextMessage | BinaryMessage | CloseMessage | PingMessage | PongMessage

  /** One websocket message and the result of decoding it as an array. */
  datatype Frame = Frame(kind: MessageType, data: seq<byte>, decoded: Option<seq<Element>>)

  /** One result of reading the websocket: a failure, or a frame. */
  datatype Read = ReadFailure(error: string) | Received(frame: Frame)

  /** A routed inbound message. */
  datatype Command =
    | Notice(content: string)
    | Challenge(challenge: string)
    | EventFor(subId: string, event: Event)
    | EndOfStored(subId: string)
    | Ok(eventId: string, accepted: bool, message: string)
    | Unknown(tag: string)

  const KnownTags: set<string> := {"NOTICE", "AUTH", "EVENT", "EOSE", "OK"}

  /** The command tag a routed message came with. */
  function TagOf(c: Command): string {
    match c
    case Notice(_) => "NOTICE"
    case Challenge(_) => "AUTH"
    case EventFor(_, _) => "EVENT"
    case EndOfStored(_) => "EOSE"
    case Ok(_, _, _) => "OK"
    case Unknown(tag) => tag
  }

  /**
   * The drop rules, stated in one place: not a text message, empty, not opening
   * with `[`, not an array, fewer than two elements, or an EVENT or OK with fewer
   * than three.
   */
  predicate Dropped(f: Frame) {
    || f.kind != TextMessage
    || |f.data| == 0
    || f.data[0] != OpenBracket
    || f.decoded.None?
    || |f.decoded.value| < 2
    || (f.decoded.value[0].text in {"EVENT", "OK"} && |f.decoded.value| < 3)
  }

  /**
   * Applies the drop rules and the length guards to a frame and routes it by
   * its first element. A ping is answered by the transport and never routed.
   */
  function Parse(f: Frame): (c: Option<Command>)
    ensures c.None? <==> Dropped(f)
    ensures c.Some? ==> TagOf(c.value) == f.decoded.value[0].text
    ensures c.Some? ==>
      var msg := f.decoded.value;
      match c.value
      case Notice(content) => content == msg[1].text
      case Challenge(challenge) => challenge == msg[1].text
      case EventFor(subId, event) => subId == msg[1].text && event == msg[2].event
      case EndOfStored(subId) => subId == msg[1].text
      case Ok(eventId, accepted, message) =>
        && eventId == msg[1].text
        && accepted == msg[2].flag
        && message == (if |msg| > 3 then msg[3].text else "")
      case Unknown(tag) => tag !in KnownTags
  {
    if f.kind == PingMessage then None
    else if f.kind != TextMessage || |f.data| == 0 || f.data[0] != OpenBracket then None
    else
      match f.decoded
      case None => None
      case Some(msg) =>
        if |msg| < 2 then None
        else
          var command := msg[0].text;
          if command == "NOTICE" then Some(Notice(msg[1].text))
          else if command == "AUTH" then Some(Challenge(msg[1].text))
          else if command == "EVENT" then
            if |msg| < 3 then None else Some(EventFor(msg[1].text, msg[2].event))
          else if command == "EOSE" then
            if |msg| < 2 then None else Some(EndOfStored(msg[1].text))
          else if command == "OK" then
            if |msg| < 3 then None
            else Some(Ok(msg[1].text, msg[2].flag, if |msg| > 3 then msg[3].text else ""))
          else Some(Unknown(command))
  }
}
